=== FILE: README.md ===
# Daily token quota: a Dafny model

Each user of the service has at most one row in the `user_tokens` table:
`tokens_available`, `tokens_used` and `last_reset_date`. One rule keeps the quota daily. When a
row's `last_reset_date` is not today, the row is rewritten to 100 available, 0 used, dated
today. Two code paths apply that rule:

- the `reset-daily-tokens` edge function (the **sweep**), which, for any request other than an
  OPTIONS preflight, lists every row not dated today, resets those rows in one update and reports
  `reset_count`;
- the dashboard's `fetchTokenData` (the **lazy reset**) reads the signed-in user's row, resets it
  when it is stale and displays the result.

The project models both paths as pure functions over the table. It also models the dashboard's
display fallbacks, its countdown to midnight, and the sign-in form's state machine.

Modules:

- `Outcomes` (`outcomes.dfy`): `Option`, the value a `catch` receives (`Fault`), and `Reply`.
  A `Reply` is the success or failure of one request to the database or auth service.
- `QuotaStore` (`quota_store.dfy`): the row, the table as `map<UserId, QuotaRecord>`, the stale
  query and the reset update.
- `BatchReset` (`batch_reset.dfy`): the sweep, `Sweep(store, today, env, fetch, update)`.
- `Dashboard` (`dashboard.dfy`): `FetchTokenData`, the `|| 0` display fallbacks and
  `getNextResetTime`.
- `Agreement` (`agreement.dfy`): how the two paths compose on one day.
- `LoginPage` (`login_page.dfy`): `handleSendOTP`, `handleVerifyOTP`, `resetForm`, the phone
  `+` prefix and the OTP digit filter.

Inputs that come from outside the code are parameters:

- `today` is given as a `YYYY-MM-DD` string. Dates are only compared for equality, as the code
  does (`!==` and `.neq`).
- The countdown takes `diff`, the whole milliseconds to the next midnight.
- Each request's outcome is a `Reply`. A successful request returns exactly what the table holds;
  in particular the sweep's select returns every matching row (see "## Left out").

Facts about the code that shape the model:

- The code has no create-if-absent step (`src/Components/Dashboard.tsx:30`). A user without a
  row keeps no row.
- The code has no compare-and-reset. The lazy path and the sweep both write without a guard.
- The code uses no date ordering, only `!==` and `.neq`. A row dated after today is reset like
  an older one, so `last_reset_date` is not monotonic.
- `reset_count` is the number of rows the select listed
  (`src/supabase/functions/reset-daily-tokens/index.ts:73`), not a count returned by the write.
  In the sequential model these two numbers agree (`BatchReset.CountIsRowsChanged`).
- The lazy path takes the date from the browser's clock, not the server's (see "## Left out"
  for what this means for the `Agreement` lemmas).

## Model

| member | source | states |
|---|---|---|
| QuotaStore.StaleUsers | src/supabase/functions/reset-daily-tokens/index.ts:29-32 | the select lists only users with a row, and lists a user exactly when that row's date differs from today |
| QuotaStore.ResetUsers | src/supabase/functions/reset-daily-tokens/index.ts:56-63 | the update rewrites every listed user's existing row to (100, 0, today), leaves unlisted rows unchanged, and creates or drops no row |
| Outcomes.ErrorText | src/supabase/functions/reset-daily-tokens/index.ts:87 | definition of `err instanceof Error ? err.message : fallback` (also `src/Components/LoginPage.tsx:49` and `:80`); where each fallback text applies is stated by the contracts of `BatchReset.Sweep`, `LoginPage.SendOtp` and `LoginPage.VerifyOtp` |
| QuotaStore.NoneStaleIffAllCurrent | src/supabase/functions/reset-daily-tokens/index.ts:29-38 | the stale query lists nothing exactly when every row is dated today |
| QuotaStore.ResetStaleChangesExactlyStale | src/supabase/functions/reset-daily-tokens/index.ts:54-63 | updating the listed ids changes exactly the stale rows, after which every row is current and none is stale |
| BatchReset.Sweep | src/supabase/functions/reset-daily-tokens/index.ts:17-97 | success happens exactly when both env vars are set, the select succeeds, and either nothing is stale or the update succeeds; the answer is "All tokens are up to date" with count 0 when nothing is stale, "Tokens reset successfully" with the stale count when the update succeeds, and the update error's message or "Unknown error" when it fails; on success `reset_count` is the number of stale rows, stale rows become (100, 0, today), current rows and the key set are unchanged, and every row is current; every failure leaves the table unchanged; missing env gives the fixed message; a select error gives its message or "Unknown error" |
| BatchReset.NothingStaleNoWrite | src/supabase/functions/reset-daily-tokens/index.ts:38-52 | with the store reachable, "up to date" with count 0 and no write happens exactly when nothing is stale, whatever the update would do; a success with count 0 implies nothing was stale |
| BatchReset.CountIsRowsChanged | src/supabase/functions/reset-daily-tokens/index.ts:54-73 | a successful run's `reset_count` equals the number of rows whose contents the run changed |
| BatchReset.SecondRunSameDay | src/supabase/functions/reset-daily-tokens/index.ts:27-44 | after a successful run, a second run on the same day whose select succeeds answers "up to date" with count 0 and leaves the table as it was |
| Dashboard.FetchTokenData | src/Components/Dashboard.tsx:18-57 | no user: nothing is read or written and the view is untouched (even `loading`); otherwise `loading` ends false; no row is created or dropped and other users' rows never change; a read error or an absent row means one request, no write and the displayed row kept; a current row is displayed as stored with no write; a stale row in either direction gets a second request; if that update succeeds the row and the display become (100, 0, today), and if it fails the table and the display are kept |
| Dashboard.FetchShowsCurrentRow | src/Components/Dashboard.tsx:30-50 | after a fully successful fetch of an existing row, the displayed row is the stored row and it is dated today |
| Dashboard.SecondFetchSameDay | src/Components/Dashboard.tsx:34-49 | after a fully successful first fetch, a second fetch on the same day, with any replies, makes one request and no write, and keeps the table and the view |
| Dashboard.ShownAvailable | src/Components/Dashboard.tsx:141 | `tokens_available \|\| 0` shows 0 without a row and the stored count whenever there is one |
| Dashboard.ShownUsed | src/Components/Dashboard.tsx:173 | `tokens_used \|\| 0` shows 0 without a row and the stored count whenever there is one |
| Dashboard.DisplayedCounts | src/Components/Dashboard.tsx:30-51 | a first load for a user with no row shows 0 and 0; a first load that resets a stale row shows 100 and 0 |
| Dashboard.JsRem | src/Components/Dashboard.tsx:77 | JavaScript's `%` by a positive divisor: the remainder lies in [0, b) for a non-negative dividend and in (-b, 0] for a negative one, and the dividend minus the remainder is a multiple of b, which fixes the value |
| Dashboard.JsRemNegate | src/Components/Dashboard.tsx:77 | negating the dividend negates the JavaScript remainder |
| Dashboard.NextResetCountdown | src/Components/Dashboard.tsx:69-79 | for `diff >= 0` the minutes lie in [0, 59], the hours are non-negative, `hours*60 + minutes == diff div 60000`, and the dropped remainder is under one minute |
| Agreement.ReadAgreesWithSweep | src/Components/Dashboard.tsx:34-44 | for every user with a row, the lazy reset writes the same row the sweep writes |
| Agreement.ReadThenSweep | src/supabase/functions/reset-daily-tokens/index.ts:29-73 | after a user's stale row is reset lazily, that user is no longer stale; a successful sweep that day leaves the user's row alone, counts one row fewer, and ends with the table the sweep alone would produce |
| Agreement.SweepThenRead | src/Components/Dashboard.tsx:30-50 | after a successful sweep, a read that day makes one request, writes nothing and, when the read succeeds, shows the swept row |
| Agreement.AfterReadsResetsListedStale | src/Components/Dashboard.tsx:34-44 | successful reads by any list of users reset exactly the stale rows of the listed users |
| Agreement.EveryoneReadsEqualsSweep | src/supabase/functions/reset-daily-tokens/index.ts:27-63 | if every user with a row reads successfully on the same day, in any order and with repeats, the table ends as one successful sweep leaves it |
| LoginPage.FormatPhone | src/Components/LoginPage.tsx:36 | the number sent always starts with `+`; a `+`-prefixed contact is unchanged; otherwise the result is `+` followed by the contact |
| LoginPage.FormatPhoneIdempotent | src/Components/LoginPage.tsx:70 | formatting twice is formatting once; a contact typed with or without its leading `+` is sent as the same number |
| LoginPage.RecipientOf | src/Components/LoginPage.tsx:24-38 | the email path sends the contact verbatim; the phone path sends the contact itself when it starts with `+` and `+` followed by the contact otherwise |
| LoginPage.BeginSend | src/Components/LoginPage.tsx:19-21 | while sending, `loading` is true and both error and message are cleared; channel, step, contact and otp are kept |
| LoginPage.SendOtp | src/Components/LoginPage.tsx:17-53 | the request goes to the form's recipient and `loading` ends false; success moves to the verify step with that channel's message and no error; failure keeps the step, leaves the message empty and shows the error's message or "Failed to send OTP" |
| LoginPage.BeginVerify | src/Components/LoginPage.tsx:57-58 | while verifying, `loading` is true and only the error is cleared; the message is kept |
| LoginPage.VerifyOtp | src/Components/LoginPage.tsx:55-84 | the typed code is checked against the form's recipient, with type `email` or `sms`; `loading` ends false; the other fields are kept; failure shows the error's message or "Invalid OTP code" |
| LoginPage.ResetForm | src/Components/LoginPage.tsx:86-92 | the step returns to input, contact, otp, error and message are emptied, and the channel and `loading` are kept |
| LoginPage.CanSend | src/Components/LoginPage.tsx:164 | definition of the send button's `disabled={loading}`; its property is stated by `LoginPage.ButtonsDisabledWhileInFlight` |
| LoginPage.CanVerify | src/Components/LoginPage.tsx:210 | definition of the verify button's enable condition (`disabled={loading \|\| otp.length !== 6}`); its properties are stated by `LoginPage.ButtonsDisabledWhileInFlight` and `LoginPage.SixDigitsEnableVerify` |
| LoginPage.ButtonsDisabledWhileInFlight | src/Components/LoginPage.tsx:164 | both buttons are disabled while their request is in flight; after either handler the send button is enabled again, and the verify button is enabled again exactly when the code has six characters |
| LoginPage.DigitsOnly | src/Components/LoginPage.tsx:193 | the filtered code contains only digits and is no longer than the input; an all-digit input is unchanged |
| LoginPage.DigitsOnlyAppend | src/Components/LoginPage.tsx:193 | filtering a concatenation gives the concatenation of the filtered parts |
| LoginPage.DigitsOnlyKeepsDigits | src/Components/LoginPage.tsx:193 | each digit occurs as many times in the filtered code as in the input |
| LoginPage.EnterOtp | src/Components/LoginPage.tsx:190-198 | typing in the code field stores the digits of the typed value and changes no other field |
| LoginPage.VerifyUsesSendRecipient | src/Components/LoginPage.tsx:25-26 | after a successful send, verification goes to the recipient the code was sent to, which is the email exactly as typed on the email path |
| LoginPage.SixDigitsEnableVerify | src/Components/LoginPage.tsx:210 | on the verify step after a send, the verify button is enabled exactly when the typed value has six digits |
| LoginPage.ResetAfterSend | src/Components/LoginPage.tsx:86-92 | going back after any send outcome returns to the initial form for the same channel; resetting twice equals resetting once |

## Left out

- Creating the Supabase client, reading the environment (only whether each variable is present
  and non-empty is modelled), CORS and the OPTIONS preflight, and building the HTTP response.
  These are I/O; the JSON body is the `Response` datatype and the status is `HttpStatus`.
- Computing `today` with `new Date().toISOString()`, and deriving `diff` with `setDate`,
  `setHours` and `getTime`. Both depend on the wall clock and the time zone, so both are inputs.
  The sweep and the lazy path use a UTC date, while the countdown counts to local midnight. The
  model does not relate the two.
- Agreement.ReadAgreesWithSweep, Agreement.ReadThenSweep, Agreement.SweepThenRead and
  Agreement.EveryoneReadsEqualsSweep give both paths one shared `today`. They assume the
  browser's UTC date and the server's UTC date agree. When the two clocks fall on different dates,
  a row the lazy path dated with the browser's date is stale for the server, so that day's sweep
  lists it, rewrites it and counts it.
- Dashboard.NextResetCountdown: the quotients are exact integer floors. JavaScript divides
  in floating point, which for realistic `diff` values gives the same floor. The `${h}h ${m}m`
  text is not modelled.
- Interleavings of the lazy path, the sweep and the consumption logic. The code has no atomic
  guard, so no convergence or no-regression property is claimed.
- `updated_at`, `created_at` and `id` are set by the database and are not read by the reset logic.
  `last_reset_date` is taken to be non-null, as the row type declares.
- The sweep's update is one SQL statement, so when it fails the model leaves the table unchanged.
  A select with no error is taken to return an array, so the `!tokensToReset` branch is covered
  by the empty case.
- The database API's row cap on the sweep's select. The select at
  `src/supabase/functions/reset-daily-tokens/index.ts:29-32` has no `.range()` and does not page,
  so the service returns at most its max-rows setting (1000 by default). The model takes the select
  to return every stale row. With more stale rows than the cap, a successful run resets only the
  rows returned and reports their number, so `BatchReset.Sweep`'s "every row is current"
  clause, `BatchReset.SecondRunSameDay` and `Agreement.EveryoneReadsEqualsSweep` do not hold for
  the code.
- `maybeSingle` and `single` errors for duplicate rows cannot arise, because `user_id` keys the
  map.
- The percentage bar (`tokens_available / 100 * 100`) uses floating point.
- The refresh button's spinner `setTimeout`, rendering, styling, and the routing in
  `src/App.tsx`.
- The Supabase auth calls. Only their success or failure and the arguments passed are modelled,
  and signing in on a successful verify is the auth service's job.
- The browser-enforced input attributes `required`, `type="email"` and `maxLength={6}` act on
  raw input before the handlers run. `EnterOtp` takes the typed value as the browser delivers it.
- The single-field setters for the channel buttons and the contact input.
- `console.error` logging in both catch blocks.

=== FILE: agreement.dfy ===
/** How the lazy reset on read and the sweep relate when they run one after the other
    on the same day. Both apply the same rule to a row, so they agree row by row, and a day on
    which every user reads their dashboard leaves the table as the sweep would. */
module Agreement {
  import opened Outcomes
  import opened QuotaStore
  import opened BatchReset
  import opened Dashboard

  /** The table after a fully successful read by `u` on `today`. */
  function AfterRead(store: Store, u: UserId, today: Date): Store
  {
    FetchTokenData(store, Some(u), today, InitialView, Ok, Ok).store
  }

  /** The table after successful reads by each of `users`, in order, on the same day. */
  function AfterReads(store: Store, users: seq<UserId>, today: Date): Store
    decreases |users|
  {
    if |users| == 0 then store
    else AfterReads(AfterRead(store, users[0], today), users[1..], today)
  }

  /** For every user the lazy path writes the row the sweep writes: the reset rule is the same. */
  lemma ReadAgreesWithSweep(store: Store, u: UserId, today: Date, env: Env)
    requires Configured(env) && u in store
    ensures AfterRead(store, u, today)[u] == Sweep(store, today, env, Ok, Ok).store[u]
  {
  }

  /** A user reset lazily earlier the same day is neither rewritten nor counted by the sweep, which
      counts one row fewer than it would have without that read; every other row ends as the sweep
      alone would leave it. */
  lemma {:induction false} ReadThenSweep(store: Store, u: UserId, today: Date, env: Env, update: Reply)
    requires Configured(env) && u in store && IsStale(store[u], today)
    ensures var mid := AfterRead(store, u, today);
            var run := Sweep(mid, today, env, Ok, update);
            u !in StaleUsers(mid, today) &&
            (run.response.Success? ==>
               run.store[u] == mid[u] &&
               run.response.resetCount == |StaleUsers(store, today)| - 1 &&
               run.store == Sweep(store, today, env, Ok, Ok).store)
  {
    var mid := AfterRead(store, u, today);
    assert StaleUsers(mid, today) == StaleUsers(store, today) - {u};
    var run := Sweep(mid, today, env, Ok, update);
    if run.response.Success? {
      var alone := Sweep(store, today, env, Ok, Ok).store;
      assert run.store.Keys == alone.Keys;
      forall v | v in run.store
        ensures run.store[v] == alone[v]
      {
      }
    }
  }

  /** After a successful sweep a read on the same day writes nothing and shows the swept row. */
  lemma SweepThenRead(store: Store, u: UserId, today: Date, env: Env, fetch: Reply, update: Reply,
                      view: View, read2: Reply, update2: Reply)
    requires Sweep(store, today, env, fetch, update).response.Success?
    requires u in store
    ensures var swept := Sweep(store, today, env, fetch, update).store;
            var f := FetchTokenData(swept, Some(u), today, view, read2, update2);
            f.store == swept && f.calls == 1 &&
            (read2.Ok? ==> f.view.tokenData == Some(swept[u]))
  {
  }

  /** Reads by a list of users reset exactly the stale rows of the users on the list. */
  lemma {:induction false} AfterReadsResetsListedStale(store: Store, users: seq<UserId>, today: Date)
    ensures AfterReads(store, users, today) ==
              ResetUsers(store, (set v | v in users) * StaleUsers(store, today), today)
    decreases |users|
  {
    if |users| == 0 {
      assert (set v | v in users) == {};
      assert ResetUsers(store, {}, today) == store;
    } else {
      var u := users[0];
      var mid := AfterRead(store, u, today);
      AfterReadsResetsListedStale(mid, users[1..], today);
      var lhs := AfterReads(store, users, today);
      var rhs := ResetUsers(store, (set v | v in users) * StaleUsers(store, today), today);
      assert lhs == ResetUsers(mid, (set v | v in users[1..]) * StaleUsers(mid, today), today);
      assert lhs.Keys == rhs.Keys;
      forall v | v in lhs
        ensures lhs[v] == rhs[v]
      {
        assert v in users[1..] ==> v in users;
        if v != u {
          assert v in users ==> v in users[1..] by {
            if v in users {
              var i :| 0 <= i < |users| && users[i] == v;
              assert i != 0;
              assert users[1..][i - 1] == v;
            }
          }
        }
      }
    }
  }

  /** A day on which every user with a row reads their dashboard, in any order and with repeats,
      leaves the table exactly as one successful sweep would. */
  lemma EveryoneReadsEqualsSweep(store: Store, users: seq<UserId>, today: Date, env: Env)
    requires Configured(env)
    requires forall v :: v in store ==> v in users
    ensures AfterReads(store, users, today) == Sweep(store, today, env, Ok, Ok).store
  {
    AfterReadsResetsListedStale(store, users, today);
    assert (set v | v in users) * StaleUsers(store, today) == StaleUsers(store, today);
  }
}

=== FILE: batch_reset.dfy ===
/** The `reset-daily-tokens` edge function: list every row not dated today, reset those rows
    in one update, and report how many were listed. */
module BatchReset {
  import opened Outcomes
  import opened QuotaStore

  /** The two environment variables the function reads; an absent or empty value is missing. */
  datatype Env = Env(url: Option<string>, serviceKey: Option<string>)

  /** The JSON body of the function's answer. Only a success carries `reset_count`. */
  datatype Response =
    | Success(message: string, resetCount: nat)
    | Failure(error: string)

  /** The table after the run together with the answer. */
  datatype Run = Run(store: Store, response: Response)

  const MissingEnvMessage: string := "Missing Supabase environment variables"
  const UpToDateMessage: string := "All tokens are up to date"
  const ResetMessage: string := "Tokens reset successfully"
  const UnknownErrorMessage: string := "Unknown error"

  /** The HTTP status of the answer: the default 200 on success, 500 from the `catch` block. */
  function HttpStatus(r: Response): int
  {
    if r.Success? then 200 else 500
  }

  /** A variable passes the `!value` test when it is present and not the empty string. */
  predicate Present(v: Option<string>)
  {
    v.Some? && v.value != ""
  }

  predicate Configured(env: Env)
  {
    Present(env.url) && Present(env.serviceKey)
  }

  /** One invocation of the function (any method but OPTIONS) on `today`. `fetch` and `update` are
      the outcomes of the select and of the update request. Only a success can write, every stale
      row is then reset and the count is the number of rows the select listed. */
  function Sweep(store: Store, today: Date, env: Env, fetch: Reply, update: Reply): (run: Run)
    ensures run.response.Success? <==>
              Configured(env) && fetch.Ok? && (StaleUsers(store, today) == {} || update.Ok?)
    ensures run.response.Success? ==> run.response.resetCount == |StaleUsers(store, today)|
    ensures run.response.Success? ==> AllCurrent(run.store, today)
    ensures run.response.Success? ==>
              run.store.Keys == store.Keys &&
              (forall u :: u in store && !IsStale(store[u], today) ==> run.store[u] == store[u]) &&
              (forall u :: u in store && IsStale(store[u], today) ==> run.store[u] == FreshRecord(today))
    ensures run.response.Failure? ==> run.store == store
    ensures !Configured(env) ==> run.response == Failure(MissingEnvMessage)
    ensures Configured(env) && fetch.Failed? ==>
              run.response == Failure(ErrorText(fetch.fault, UnknownErrorMessage))
    ensures Configured(env) && fetch.Ok? && StaleUsers(store, today) == {} ==>
              run.response == Success(UpToDateMessage, 0)
    ensures Configured(env) && fetch.Ok? && StaleUsers(store, today) != {} ==>
              run.response == (if update.Ok? then Success(ResetMessage, |StaleUsers(store, today)|)
                               else Failure(ErrorText(update.fault, UnknownErrorMessage)))
  {
    if !Configured(env) then
      Run(store, Failure(MissingEnvMessage))
    else if fetch.Failed? then
      Run(store, Failure(ErrorText(fetch.fault, UnknownErrorMessage)))
    else
      var ids := StaleUsers(store, today);
      if |ids| == 0 then
        NoneStaleIffAllCurrent(store, today);
        Run(store, Success(UpToDateMessage, 0))
      else if update.Failed? then
        Run(store, Failure(ErrorText(update.fault, UnknownErrorMessage)))
      else
        ResetStaleChangesExactlyStale(store, today);
        Run(ResetUsers(store, ids, today), Success(ResetMessage, |ids|))
  }

  /** With nothing stale a run that reaches the store answers "up to date" with count 0 and writes
      nothing, whatever the update request would have done; conversely a zero count means nothing
      was stale. */
  lemma NothingStaleNoWrite(store: Store, today: Date, env: Env, update: Reply)
    requires Configured(env)
    ensures StaleUsers(store, today) == {} <==>
              Sweep(store, today, env, Ok, update) == Run(store, Success(UpToDateMessage, 0))
    ensures Sweep(store, today, env, Ok, update).response.Success? &&
            Sweep(store, today, env, Ok, update).response.resetCount == 0 ==>
              StaleUsers(store, today) == {}
  {
  }

  /** The count reported equals the number of rows the run changed. */
  lemma {:induction false} CountIsRowsChanged(store: Store, today: Date, env: Env, fetch: Reply, update: Reply)
    requires Sweep(store, today, env, fetch, update).response.Success?
    ensures Sweep(store, today, env, fetch, update).response.resetCount ==
              |ChangedUsers(store, Sweep(store, today, env, fetch, update).store)|
  {
    ResetStaleChangesExactlyStale(store, today);
    var run := Sweep(store, today, env, fetch, update);
    if StaleUsers(store, today) == {} {
      assert run.store == store;
      assert ChangedUsers(store, store) == {};
    }
  }

  /** A second run on the same day after a successful one lists nothing, reports count 0 and
      writes nothing, whatever its own update request would do. */
  lemma SecondRunSameDay(store: Store, today: Date, env: Env, fetch: Reply, update: Reply, update2: Reply)
    requires Sweep(store, today, env, fetch, update).response.Success?
    ensures var after := Sweep(store, today, env, fetch, update).store;
            Sweep(after, today, env, Ok, update2) == Run(after, Success(UpToDateMessage, 0))
  {
  }
}

=== FILE: dashboard.dfy ===
/** The dashboard's quota logic: the lazy reset performed when a user's row is read, the
    fallbacks used to display it, and the countdown to the next midnight. */
module Dashboard {
  import opened Outcomes
  import opened QuotaStore

  /** The component state the fetch touches: the row on display (`null` before any load) and the
      loading flag. */
  datatype View = View(tokenData: Option<QuotaRecord>, loading: bool)

  /** The table and the view after one fetch, and how many requests the fetch sent to the store. */
  datatype Fetch = Fetch(store: Store, view: View, calls: nat)

  /** The state the component starts in: nothing on display, loading. */
  const InitialView: View := View(None, true)

  /** `fetchTokenData`: read the signed-in user's row; if its date is not today rewrite it to the
      daily allowance and display the rewritten row, otherwise display it as read. `read` and
      `update` are the outcomes of the two requests. Every error is swallowed: the view keeps what
      it showed. */
  function FetchTokenData(store: Store, user: Option<UserId>, today: Date, view: View,
                          read: Reply, update: Reply): (f: Fetch)
    // no user: the function returns before its try/finally, so not even `loading` changes
    ensures user.None? ==> f == Fetch(store, view, 0)
    ensures user.Some? ==> !f.view.loading && 1 <= f.calls <= 2
    // no row is created or dropped, and no other user's row changes
    ensures f.store.Keys == store.Keys
    ensures forall v :: v in store && Some(v) != user ==> f.store[v] == store[v]
    // a failed request or an absent row leaves the store and the displayed row as they were
    ensures user.Some? && (read.Failed? || user.value !in store) ==>
              f.store == store && f.view.tokenData == view.tokenData && f.calls == 1
    // a current row is displayed as stored, with no write
    ensures user.Some? && read.Ok? && user.value in store && !IsStale(store[user.value], today) ==>
              f == Fetch(store, View(Some(store[user.value]), false), 1)
    // a stale row, in either direction, is rewritten and the rewritten row is displayed
    ensures user.Some? && read.Ok? && user.value in store && IsStale(store[user.value], today) ==>
              f.calls == 2 &&
              (update.Ok? ==> f.store[user.value] == FreshRecord(today) &&
                              f.view.tokenData == Some(FreshRecord(today))) &&
              (update.Failed? ==> f.store == store && f.view.tokenData == view.tokenData)
  {
    match user
    case None => Fetch(store, view, 0)
    case Some(u) =>
      if read.Failed? || u !in store then
        Fetch(store, view.(loading := false), 1)
      else if !IsStale(store[u], today) then
        Fetch(store, View(Some(store[u]), false), 1)
      else if update.Failed? then
        Fetch(store, view.(loading := false), 2)
      else
        var renewed := FreshRecord(today);
        Fetch(store[u := renewed], View(Some(renewed), false), 2)
  }

  /** After a fetch in which every request succeeded, the displayed row is the user's stored row
      and it is dated today. */
  lemma FetchShowsCurrentRow(store: Store, u: UserId, today: Date, view: View)
    requires u in store
    ensures var f := FetchTokenData(store, Some(u), today, view, Ok, Ok);
            f.view.tokenData == Some(f.store[u]) && f.store[u].lastResetDate == today
  {
  }

  /** Fetching twice on the same day: the second fetch writes nothing, leaves the table as the
      first left it and displays the same row. */
  lemma SecondFetchSameDay(store: Store, u: UserId, today: Date, view: View, read2: Reply, update2: Reply)
    ensures var first := FetchTokenData(store, Some(u), today, view, Ok, Ok);
            var second := FetchTokenData(first.store, Some(u), today, first.view, read2, update2);
            second.store == first.store && second.calls == 1 && second.view == first.view
  {
  }

  /** `tokenData?.tokens_available || 0`: the `|| 0` only replaces a missing row, since the one
      falsy count, 0, is replaced by 0. */
  function ShownAvailable(data: Option<QuotaRecord>): (n: int)
    ensures data.None? ==> n == 0
    ensures data.Some? ==> n == data.value.tokensAvailable
  {
    if data.Some? && data.value.tokensAvailable != 0 then data.value.tokensAvailable else 0
  }

  /** `tokenData?.tokens_used || 0`, which likewise shows the stored count whenever there is a row. */
  function ShownUsed(data: Option<QuotaRecord>): (n: int)
    ensures data.None? ==> n == 0
    ensures data.Some? ==> n == data.value.tokensUsed
  {
    if data.Some? && data.value.tokensUsed != 0 then data.value.tokensUsed else 0
  }

  /** A first load for a user without a row shows 0 available and 0 used; a load that reset a stale
      row shows the full allowance and nothing used. */
  lemma DisplayedCounts(store: Store, u: UserId, today: Date)
    ensures u !in store ==>
              var f := FetchTokenData(store, Some(u), today, InitialView, Ok, Ok);
              ShownAvailable(f.view.tokenData) == 0 && ShownUsed(f.view.tokenData) == 0
    ensures u in store && IsStale(store[u], today) ==>
              var f := FetchTokenData(store, Some(u), today, InitialView, Ok, Ok);
              ShownAvailable(f.view.tokenData) == DailyAllowance && ShownUsed(f.view.tokenData) == 0
  {
  }

  const MsPerMinute: int := 1000 * 60
  const MsPerHour: int := 1000 * 60 * 60

  /** A non-zero multiple of a positive `b` is at least `b` away from zero. */
  lemma NonZeroMultipleBound(k: int, b: int)
    requires b > 0
    ensures k >= 1 ==> k * b >= b
    ensures k <= -1 ==> k * b <= -b
  {
  }

  /** A multiple of a positive `b` leaves no remainder. */
  lemma MultipleHasNoRemainder(q: int, b: int)
    requires b > 0
    ensures (q * b) % b == 0
  {
    var k := (q * b) / b - q;
    assert k * b == -((q * b) % b);
    NonZeroMultipleBound(k, b);
  }

  /** JavaScript's `%`: the remainder takes the sign of the dividend, and the dividend minus the
      remainder is a multiple of the divisor. Together these fix the value. */
  function JsRem(a: int, b: int): (r: int)
    requires b > 0
    ensures a >= 0 ==> 0 <= r < b
    ensures a < 0 ==> -b < r <= 0
    ensures (a - r) % b == 0
  {
    if a >= 0 then
      var q := a / b;
      assert a - a % b == q * b;
      MultipleHasNoRemainder(q, b);
      a % b
    else
      var q := (-a) / b;
      assert a + (-a) % b == (-q) * b;
      MultipleHasNoRemainder(-q, b);
      -((-a) % b)
  }

  /** Negating the dividend negates the JavaScript remainder, unlike Dafny's Euclidean `%`. */
  lemma JsRemNegate(a: int, b: int)
    requires b > 0
    ensures JsRem(-a, b) == -JsRem(a, b)
  {
  }

  datatype Countdown = Countdown(hours: int, minutes: int)

  /** `getNextResetTime` from the milliseconds `diff` to the next midnight. `Math.floor` of a
      quotient by a positive divisor is Dafny's `/`; the inner remainder is JavaScript's. For a
      non-negative `diff` the minutes are a proper minute-of-hour, and hours and minutes together
      are the whole minutes in `diff`: the countdown drops only the seconds. */
  function NextResetCountdown(diff: int): (c: Countdown)
    ensures diff >= 0 ==>
              0 <= c.minutes <= 59 && c.hours >= 0 &&
              c.hours * 60 + c.minutes == diff / MsPerMinute &&
              0 <= diff - (c.hours * MsPerHour + c.minutes * MsPerMinute) < MsPerMinute
  {
    Countdown(diff / MsPerHour, JsRem(diff, MsPerHour) / MsPerMinute)
  }
}

=== FILE: login_page.dfy ===
/** The sign-in form: a two-step state machine that sends a one-time code to an email address or
    phone number and then submits the code the user typed. The auth service's answers are
    parameters. */
module LoginPage {
  import opened Outcomes

  datatype Channel = Email | Phone

  datatype Step = Input | Verify

  /** The form's component state. */
  datatype Form = Form(channel: Channel, step: Step, contact: string, otp: string,
                       loading: bool, error: string, message: string)

  /** Where a code is sent to or checked against. */
  datatype Recipient = EmailAddress(address: string) | PhoneNumber(number: string)

  /** The arguments of a `verifyOtp` request: recipient, the typed code and its `type`. */
  datatype CodeCheck = CodeCheck(recipient: Recipient, token: string, kind: string)

  /** A handler's outcome: the form once the handler has finished, and the request it sent. */
  datatype Sent = Sent(form: Form, recipient: Recipient)
  datatype Checked = Checked(form: Form, request: CodeCheck)

  const InitialForm: Form := Form(Email, Input, "", "", false, "", "")

  const EmailSentMessage: string := "Check your email for the OTP code"
  const PhoneSentMessage: string := "Check your phone for the OTP code"
  const SendFailedMessage: string := "Failed to send OTP"
  const VerifyFailedMessage: string := "Invalid OTP code"
  const CodeLength: nat := 6

  predicate StartsWithPlus(s: string)
  {
    |s| > 0 && s[0] == '+'
  }

  /** The phone number sent to the auth service: the contact as typed when it already starts with
      `+`, otherwise the contact with `+` prepended. */
  function FormatPhone(contact: string): (p: string)
    ensures StartsWithPlus(p)
    ensures StartsWithPlus(contact) ==> p == contact
    ensures !StartsWithPlus(contact) ==> |p| == |contact| + 1 && p[1..] == contact
  {
    if StartsWithPlus(contact) then contact else "+" + contact
  }

  /** Formatting a formatted number changes nothing, and a number typed with or without its
      leading `+` reaches the auth service the same. */
  lemma FormatPhoneIdempotent(contact: string)
    ensures FormatPhone(FormatPhone(contact)) == FormatPhone(contact)
    ensures FormatPhone("+" + contact) == FormatPhone(contact) || StartsWithPlus(contact)
  {
  }

  /** The recipient both handlers derive from the form: the email verbatim, or the formatted phone. */
  function RecipientOf(f: Form): (r: Recipient)
    ensures f.channel == Email ==> r == EmailAddress(f.contact)
    ensures f.channel == Phone ==> r.PhoneNumber? && StartsWithPlus(r.number)
    ensures f.channel == Phone && StartsWithPlus(f.contact) ==> r == PhoneNumber(f.contact)
    ensures f.channel == Phone && !StartsWithPlus(f.contact) ==> r == PhoneNumber("+" + f.contact)
  {
    match f.channel
    case Email => EmailAddress(f.contact)
    case Phone => PhoneNumber(FormatPhone(f.contact))
  }

  /** The state while `signInWithOtp` is awaited: loading, error and message cleared. */
  function BeginSend(f: Form): (g: Form)
    ensures g.loading && g.error == "" && g.message == ""
    ensures g.channel == f.channel && g.step == f.step && g.contact == f.contact && g.otp == f.otp
  {
    f.(loading := true, error := "", message := "")
  }

  /** `handleSendOTP` once it has finished. On success the form moves to the code step with a
      message naming the channel; on failure it stays on its step and shows the error's message,
      or the fallback text when the thrown value is not an `Error`. */
  function SendOtp(f: Form, reply: Reply): (s: Sent)
    ensures s.recipient == RecipientOf(f)
    ensures !s.form.loading
    ensures s.form.channel == f.channel && s.form.contact == f.contact && s.form.otp == f.otp
    ensures reply.Ok? ==>
              s.form.step == Verify && s.form.error == "" &&
              s.form.message == (if f.channel == Email then EmailSentMessage else PhoneSentMessage)
    ensures reply.Failed? ==>
              s.form.step == f.step && s.form.message == "" &&
              s.form.error == ErrorText(reply.fault, SendFailedMessage)
  {
    var pending := BeginSend(f);
    var done :=
      match reply
      case Ok =>
        pending.(step := Verify,
                 message := match f.channel case Email => EmailSentMessage case Phone => PhoneSentMessage)
      case Failed(fault) => pending.(error := ErrorText(fault, SendFailedMessage));
    Sent(done.(loading := false), RecipientOf(f))
  }

  /** The state while `verifyOtp` is awaited: loading, error cleared, the message kept. */
  function BeginVerify(f: Form): (g: Form)
    ensures g.loading && g.error == "" && g.message == f.message
    ensures g.channel == f.channel && g.step == f.step && g.contact == f.contact && g.otp == f.otp
  {
    f.(loading := true, error := "")
  }

  /** `handleVerifyOTP` once it has finished. The typed code goes to the same recipient the code
      was sent to, with type `email` or `sms`. Success changes nothing but the flags (signing in
      is the auth service's business); failure shows the error's message or the fallback text. */
  function VerifyOtp(f: Form, reply: Reply): (c: Checked)
    ensures c.request.recipient == RecipientOf(f) && c.request.token == f.otp
    ensures c.request.kind == (if f.channel == Email then "email" else "sms")
    ensures !c.form.loading
    ensures c.form.channel == f.channel && c.form.step == f.step && c.form.contact == f.contact &&
            c.form.otp == f.otp && c.form.message == f.message
    ensures reply.Ok? ==> c.form.error == ""
    ensures reply.Failed? ==> c.form.error == ErrorText(reply.fault, VerifyFailedMessage)
  {
    var pending := BeginVerify(f);
    var kind := match f.channel case Email => "email" case Phone => "sms";
    var done :=
      match reply
      case Ok => pending
      case Failed(fault) => pending.(error := ErrorText(fault, VerifyFailedMessage));
    Checked(done.(loading := false), CodeCheck(RecipientOf(f), f.otp, kind))
  }

  /** `resetForm`: back to the first step with every text field empty; the chosen channel and the
      loading flag are kept. */
  function ResetForm(f: Form): (g: Form)
    ensures g == InitialForm.(channel := f.channel, loading := f.loading)
  {
    f.(step := Input, contact := "", otp := "", error := "", message := "")
  }

  /** The send button is disabled while a request is in flight. */
  predicate CanSend(f: Form)
  {
    !f.loading
  }

  /** The verify button is enabled exactly when idle and the code has six characters. */
  predicate CanVerify(f: Form)
  {
    !f.loading && |f.otp| == CodeLength
  }

  predicate IsDigit(c: char)
  {
    '0' <= c <= '9'
  }

  /** `value.replace(/\D/g, '')`: keep the ASCII digits of the input, in order. */
  function DigitsOnly(s: string): (d: string)
    ensures |d| <= |s|
    ensures forall i :: 0 <= i < |d| ==> IsDigit(d[i])
    ensures (forall i :: 0 <= i < |s| ==> IsDigit(s[i])) ==> d == s
  {
    if |s| == 0 then ""
    else if IsDigit(s[0]) then [s[0]] + DigitsOnly(s[1..])
    else DigitsOnly(s[1..])
  }

  /** The filter distributes over concatenation: digits typed in two pieces are the digits of
      each piece, one after the other. */
  lemma {:induction false} DigitsOnlyAppend(a: string, b: string)
    ensures DigitsOnly(a + b) == DigitsOnly(a) + DigitsOnly(b)
    decreases |a|
  {
    if |a| == 0 {
      assert a + b == b;
    } else {
      assert (a + b)[1..] == a[1..] + b;
      DigitsOnlyAppend(a[1..], b);
    }
  }

  /** The filter keeps every digit of its input: each digit occurs as often in the result. */
  lemma {:induction false} DigitsOnlyKeepsDigits(s: string, c: char)
    requires IsDigit(c)
    ensures multiset(DigitsOnly(s))[c] == multiset(s)[c]
    decreases |s|
  {
    if |s| > 0 {
      assert s == [s[0]] + s[1..];
      DigitsOnlyKeepsDigits(s[1..], c);
    }
  }

  /** The OTP field's change handler: the typed value with every non-digit removed. */
  function EnterOtp(f: Form, typed: string): (g: Form)
    ensures g.otp == DigitsOnly(typed)
    ensures g == f.(otp := g.otp)
  {
    f.(otp := DigitsOnly(typed))
  }

  /** Once a code was sent, verifying the code goes to the recipient the code was sent to: the email
      exactly as typed, or the same formatted phone number. */
  lemma VerifyUsesSendRecipient(f: Form, sendReply: Reply, typed: string, verifyReply: Reply)
    requires sendReply.Ok?
    ensures var sent := SendOtp(f, sendReply);
            var check := VerifyOtp(EnterOtp(sent.form, typed), verifyReply);
            sent.form.step == Verify && check.request.recipient == sent.recipient &&
            (f.channel == Email ==> check.request.recipient == EmailAddress(f.contact))
  {
  }

  /** After typing six digits on the code step, the verify button is enabled; any other number of
      digits keeps it disabled. */
  lemma SixDigitsEnableVerify(f: Form, sendReply: Reply, typed: string)
    requires sendReply.Ok?
    ensures CanVerify(EnterOtp(SendOtp(f, sendReply).form, typed)) <==> |DigitsOnly(typed)| == CodeLength
  {
  }

  /** Both buttons are disabled while their request is in flight and enabled again once the handler
      has finished, whatever the outcome. */
  lemma ButtonsDisabledWhileInFlight(f: Form, reply: Reply)
    ensures !CanSend(BeginSend(f)) && !CanVerify(BeginVerify(f))
    ensures CanSend(SendOtp(f, reply).form)
    ensures CanSend(VerifyOtp(f, reply).form)
    ensures CanVerify(VerifyOtp(f, reply).form) <==> |f.otp| == CodeLength
  {
  }

  /** "Use a different email/number" after any outcome returns to the starting form for the same
      channel, and doing it twice is the same as once. */
  lemma ResetAfterSend(f: Form, reply: Reply)
    ensures ResetForm(SendOtp(f, reply).form) == InitialForm.(channel := f.channel)
    ensures ResetForm(ResetForm(f)) == ResetForm(f)
  {
  }
}

=== FILE: outcomes.dfy ===
/** Optional values, and what a request to the hosted database or auth service can come back with.
    The services themselves are not modelled: each request's success or failure is a parameter. */
module Outcomes {

  datatype Option<+T> = None | Some(value: T)

  /** The value a `catch` block receives: an `Error` instance, whose message is shown,
      or any other thrown value, for which the caller supplies fallback text. */
  datatype Fault = ErrorInstance(message: string) | OtherValue

  /** The outcome of one request to an external service. On `Ok` the data that comes back is
      determined by the model's own state (the store map), not by the reply. */
  datatype Reply = Ok | Failed(fault: Fault)

  /** The text the code derives from a caught value: its message when it is an `Error`,
      the fallback otherwise. */
  function ErrorText(fault: Fault, fallback: string): string
  {
    match fault
    case ErrorInstance(m) => m
    case OtherValue => fallback
  }
}

=== FILE: quota_store.dfy ===
/** The `user_tokens` table: one quota row per user, and the two writes both reset paths use. */
module QuotaStore {

  type UserId = string

  /** A calendar date in the `YYYY-MM-DD` form the code derives from an ISO timestamp.
      Both reset paths only ever test two dates for (in)equality, so no order is modelled. */
  type Date = string

  /** The allowance a reset writes into `tokens_available`. */
  const DailyAllowance: int := 100

  /** The columns of a row that the reset logic reads and writes. */
  datatype QuotaRecord = QuotaRecord(tokensAvailable: int, tokensUsed: int, lastResetDate: Date)

  /** The table, keyed by `user_id`: at most one row per user. */
  type Store = map<UserId, QuotaRecord>

  /** The row both paths write: full allowance, nothing used, dated today. */
  function FreshRecord(today: Date): QuotaRecord
  {
    QuotaRecord(DailyAllowance, 0, today)
  }

  /** A row is stale when its reset date is any date other than today, earlier or later. */
  predicate IsStale(r: QuotaRecord, today: Date)
  {
    r.lastResetDate != today
  }

  /** The users whose row the query `last_reset_date <> today` lists. */
  function StaleUsers(store: Store, today: Date): (ids: set<UserId>)
    ensures ids <= store.Keys
    ensures forall u :: u in store ==> (u in ids <==> store[u].lastResetDate != today)
  {
    set u | u in store && IsStale(store[u], today)
  }

  /** The update `{100, 0, today}` restricted to `user_id in ids`. Ids without a row create nothing. */
  function ResetUsers(store: Store, ids: set<UserId>, today: Date): (after: Store)
    ensures after.Keys == store.Keys
    ensures forall u :: u in store && u in ids ==>
              after[u].tokensAvailable == DailyAllowance && after[u].tokensUsed == 0 &&
              after[u].lastResetDate == today
    ensures forall u :: u in store && u !in ids ==> after[u] == store[u]
  {
    map u | u in store :: if u in ids then FreshRecord(today) else store[u]
  }

  /** Every row of the table is dated today. */
  predicate AllCurrent(store: Store, today: Date)
  {
    forall u :: u in store ==> store[u].lastResetDate == today
  }

  /** The users whose row differs between two versions of the table. */
  function ChangedUsers(before: Store, after: Store): set<UserId>
  {
    set u | u in before && u in after && before[u] != after[u]
  }

  /** Nothing is listed as stale exactly when every row is dated today. */
  lemma NoneStaleIffAllCurrent(store: Store, today: Date)
    ensures StaleUsers(store, today) == {} <==> AllCurrent(store, today)
  {
  }

  /** Resetting exactly the stale users changes exactly those rows, and afterwards every row is
      current. */
  lemma ResetStaleChangesExactlyStale(store: Store, today: Date)
    ensures ChangedUsers(store, ResetUsers(store, StaleUsers(store, today), today)) == StaleUsers(store, today)
    ensures AllCurrent(ResetUsers(store, StaleUsers(store, today), today), today)
    ensures StaleUsers(ResetUsers(store, StaleUsers(store, today), today), today) == {}
  {
  }
}
